=== FILE: README.md ===
# Farm marketplace ledger coordinators and SMS commands, modelled in Dafny

This project models two decision procedures of the marketplace's Flask
application (`app.py`):

- the **register** and **transfer** handlers, which keep the local `users`
  table and the Wallet smart contract in step. Each is a pure step function
  over an abstract world: the local credential map (username to salted
  digest), the contract's identity records (username to the secret it was
  registered with), the signing account's balance and the node's gas price.
  A step returns the response (with its HTTP status), the new world, and the
  ordered trace of effects: local reads and writes, and ledger calls;
- the **sms** handler's command selection, as a pure classifier from the
  message body and sender to the command it triggers.

What the collaborators do during a request is passed in as an environment
value: whether a ledger call reverts (`ContractLogicError`) or fails in
transport, whether a transaction whose receipt was lost still landed, whether
the local insert fails, the gas estimate, the salt `hash_password` draws, and
the signing account's balance after a mined transaction has paid its fee.
Every transaction is signed by the same account, whose balance the next
transfer's affordability test reads, so fees paid by one request count
against the next.

Modules: `Credentials` (credentials.dfy), `Ledger` (ledger.dfy: world,
effects, responses), `Registration` (registration.dfy), `Transfers`
(transfers.dfy), `Sessions` (sessions.dfy: runs of many requests), `Text`
(text.dfy: Python `split`, `lower`, `replace(" ", "")`), `Sms` (sms.dfy).

Notes on what the code does in its failure cases:
- a duplicate rejected by the contract during `register`, and a failed local
  insert, are both answered 500, not as a conflict, because the handler's one
  `except Exception` turns every error after the two existence checks into 500;
- `transfer` catches only `ContractLogicError`. Any other exception while
  estimating (a transport error, or a `to_address` web3 refuses as an
  address) or while submitting (a transport error) is not caught; it is modelled as `Unhandled`,
  which the web framework answers with a bare 500;
- a failed `userExists` query sits outside the `try` and is `Unhandled` too;
- `transfer` returns a message, not a receipt, and the transaction is always
  signed by the node's first account, whichever user passed the credential
  gate.

## Model

| member | source | states |
|---|---|---|
| Credentials.HashPassword | app.py:61 | the stored digest verifies against the password it was made from, with the salt drawn for it |
| Credentials.CheckAcceptsOnlyThePreimage | app.py:61 | a fresh digest accepts its own password and no other |
| Credentials.DigestDeterminesPassword | app.py:106 | two passwords that verify against one digest are equal |
| Ledger.Status | app.py:47-124 | 201 only for a registration, 200 only for a transfer, 401 only for bad credentials, 400 for the two conflicts and insufficient balance, 500 for every ledger or store failure and uncaught error |
| Registration.Register | app.py:37-72 | a local row gives 400 with no ledger call and no change; a ledger identity gives 400 (or, if the `userExists` query fails, an uncaught error) with no registration sent and no change; 201 exactly when both checks pass and both writes succeed, and then the store holds `hash_password(password)` and the ledger the password; a reverted registration gives 500 and changes nothing; a transport failure gives 500, no local row, and leaves the identity on the ledger exactly when the transaction landed; a failed local insert gives 500 and keeps the ledger identity; the store changes only on 201; the ledger registration is sent whenever both checks pass, and the local insert is attempted exactly when that registration was mined; the two checks precede every write and the ledger registration comes right before the local insert; the ledger is only extended; the signer's balance changes only by a mined registration's fee; store and ledger stay consistent |
| Transfers.Transfer | app.py:92-124 | store, ledger identities and gas price are unchanged, and the signer's balance changes only when the transaction is mined; 401 exactly when the user is absent or the password fails, and then no ledger call is made; an amount `to_wei` rejects (negative, or above 2^256 - 1 base units) raises an uncaught error after the gate and the balance query, before any estimate; for an amount in range, 400 exactly when balance < amount + gas estimate * gas price (equality passes), with no submission; 200 exactly when the gate passes, the fee is affordable and the submission is mined; `TransferReverted`, the handler's own 500, exactly on a contract revert at estimation or submission; an uncaught error exactly on an out-of-range amount or a transport failure at estimation or submission; exactly one submission when the balance suffices and none otherwise, carrying the request's `(to, amount, password)` and preceded by an estimate with the same arguments |
| Transfers.GatePassImpliesLedgerSecret | app.py:101-106 | in a consistent world, a password that passes the local gate equals the secret the ledger holds for that name |
| Transfers.AffordabilityBoundary | app.py:109-118 | for an amount within `to_wei`'s range, a balance of exactly amount + fee leads to a submission; one base unit less is refused with 400 |
| Sessions.Run | app.py:37-124 | a run gives one response per request |
| Sessions.RunAppend | app.py:37-124 | handling two batches one after the other is handling their concatenation, for both the responses and the final world |
| Sessions.RunAnswersInOrder | app.py:37-124 | the k-th response is the handler's answer to the k-th request on the world left by the requests before it |
| Sessions.FeesCountAgainstLaterTransfers | app.py:109-118 | with one signing account, two transfers of 9 from a balance of 10 at a fee of 1 give 200 then 400 |
| Sessions.RunPreservesConsistency | app.py:55-65 | over any run, every local row keeps a ledger identity whose secret its digest accepts: the local insert never happens before the ledger registration |
| Sessions.RunExtendsLedger | app.py:55-58 | no run removes or rewrites a ledger identity |
| Sessions.NoCreationOnceOnLedger | app.py:50-53 | once a name is on the ledger, no later registration of it gets 201 |
| Sessions.AtMostOneCreated | app.py:42-65 | among the registrations of one name in a run, at most one gets 201 |
| Sessions.RetryAfterPartialFailure | app.py:51-68 | when the registration transaction landed but its receipt was lost, or the local insert failed, the request gets 500; a retry with any password then gets 400 (or an uncaught error), sends no second registration and writes no local row |
| Sessions.SecondRegistrationConflicts | app.py:42-65 | on an empty world, registering the same name twice gives 201 then 400 from the local check |
| Text.Split | app.py:288 | `split('\n')` gives at least one piece, no piece contains the separator, and there are two or more pieces exactly when the text contains the separator |
| Text.JoinSplit | app.py:288 | joining the pieces with the separator gives back the text |
| Text.SplitJoin | app.py:288 | splitting a join of separator-free pieces gives back the pieces |
| Text.LowerChar | app.py:291 | a character changes exactly when it is an upper-case ASCII letter, and then becomes its lower-case letter |
| Text.Lower | app.py:291 | lowering keeps the length |
| Text.LowerIsPointwise | app.py:291 | each character of the lowered text is the lowered character at the same position |
| Text.LowerIdempotent | app.py:291 | lowering twice is lowering once |
| Text.RemoveSpaces | app.py:332 | the result has no space and no character the input lacks besides; one character is dropped exactly when it is a space |
| Text.RemoveSpacesCounts | app.py:332 | every non-space character is kept as many times as it occurs, and no space is |
| Text.RemoveSpacesAppend | app.py:332 | removing spaces from a concatenation is removing them from each part, so the kept characters stay in order |
| Text.RemoveSpacesKeepsSpaceFree | app.py:332 | text without spaces is unchanged |
| Text.LowerRemoveSpacesCommute | app.py:332 | lowering and removing spaces commute |
| Text.SplitLower | app.py:288-291 | lowering the whole message and then splitting gives the lowered lines |
| Sms.Phone | app.py:286 | the reply number is the sender with its first two characters dropped, or empty for a shorter sender |
| Sms.Classify | app.py:281-369 | the missing-line error happens exactly when the body has no line break; every command goes to the sender without its two-character prefix |
| Sms.AtMostOneCommandFires | app.py:291-351 | of the handler's four independent tests at most one fires, and it is the command the classifier selects |
| Sms.AddGate | app.py:308-319 | ADD acts exactly when line 1 lowers to `add` and exactly six lines follow; the produce fields are those six lines in order |
| Sms.ClassifyIgnoresCase | app.py:291-351 | lowering the whole message selects the same command for the same number, with only an ADD's fields lowered |
| Sms.SpacesIgnoredForListings | app.py:332-351 | a command line differing only in spaces selects the same SHOW LATEST PRODUCE or DELIVERY AGENCIES command |
| Sms.SpacesMatterForHelpAndAdd | app.py:291-309 | `HELP` selects help, while `he lp` selects nothing, and `a dd` followed by six lines selects nothing, since HELP and ADD are compared without removing spaces |

## Left out

- MySQL connections, cursors and commits: the `users` table is a map; a failing local read is not modelled, a failing insert is an environment flag. The cursor and connection that `register` leaves open are not modelled: its two 400 returns (app.py:48, 53) and an error escaping `userExists` (app.py:51) all happen outside the `try`/`finally` that closes them.
- Username collation: both local lookups are SQL `WHERE username = %s` (app.py:45, 101), compared under the `users.username` column's collation, and the schema is not part of this model. The model compares usernames exactly, as a binary collation would. Under MySQL's default case-insensitive collation the local conflict check and the credential gate would also match case variants (`Alice` for `alice`) that the contract's `userExists` treats as different names, so `Sessions.AtMostOneCreated` and `Transfers.GatePassImpliesLedgerSecret` hold only under an exact collation.
- The Wallet contract's internals: `userExists`, `register` and `transferFunds` are abstract. A registration adds the name with its secret. The contract's own accounting of a transfer is not modelled, so a transfer changes only the signing account's balance, by the fee of a mined transaction.
- `wait_for_transaction_receipt` and the signing account `accounts[0]`: a transaction's outcome is an environment value. A transport failure may or may not have landed.
- Registration.Register: the handler never reads the receipt's `status` (app.py:58), and `wait_for_transaction_receipt` returns normally for a transaction that was mined but failed (out of gas, or a racing registration of the same name mined first). The source then inserts the local row and answers 201 with no ledger identity. The model has no such outcome: a returned receipt counts as a successful registration, so `Created` always adds the ledger identity and `Sessions.RunPreservesConsistency` does not cover this case.
- Transfers.Transfer: likewise the `transferFunds` receipt's `status` is never read (app.py:119), so a mined but failed transfer is answered 200 in the source. The model counts a returned receipt as a successful transfer.
- Node queries for balance and gas price are assumed to answer; only the gas estimate may revert or fail.
- `float(amount)` and `to_wei`: the amount is an integer already in base units. Floating-point rounding is not modelled; `to_wei`'s range check is: a negative amount, or one above 2^256 - 1 base units, raises an uncaught error.
- `hash_password` / `check_password`: an idealised salted digest that accepts exactly its own password. Real hash collisions and malformed stored hashes are not modelled.
- Text.Lower: only ASCII letters are lowered; Python's full Unicode case mapping is not modelled.
- Text.LowerChar: the same ASCII-only restriction, one character at a time.
- `deposit`: a single ledger call with no guard logic.
- The farmer lookup by phone number, `add_produce_sms`, `show_produce`, `show_agencies`, `sendSMS`, the text of the help reply, and the handler's constant `"1"` reply: database and SMS I/O.
- Page routes, session and role decorators, `before_request`, logout, error handlers, controller modules, and the page route at `/register` (app.py:258-263), which calls `register(app)`; that name is the JSON handler defined at app.py:37, which replaced the import at app.py:4.
- Missing request fields: `data.get` returns `None` for an absent `username`, `password`, `to_address` or `amount`, and `float(None)` raises before the credential gate; an absent `content` or `sender` form field raises at app.py:285-286. All inputs are taken as present strings and numbers.
- Sessions.Run: the gas price is a constant of the world; the node's price moving between requests is not modelled.
- Registration.Register and Transfers.Transfer: the balance after a mined transaction is taken from the environment as given; that it is lower than before by exactly the fee is not modelled.
- Concurrent requests: runs are sequential interleavings only, so two registrations racing between the ledger check and the ledger write are not modelled.

=== FILE: credentials.dfy ===
/** Password hashing as the coordinators use it: `hash_password` when a user is
    registered and `check_password` when a transfer is authorised. The hashing
    library itself is not part of this model; it is idealised here as a salted,
    collision-free digest. */
module Credentials {

  /** A salted one-way digest of a password. The preimage is kept only so that
      `CheckPassword` can be defined; no other operation of the model reads it. */
  datatype Digest = Digest(salt: nat, preimage: string)

  /** `hash_password`: the salt is the library's randomness, passed in. */
  function HashPassword(password: string, salt: nat): (d: Digest)
    ensures CheckPassword(password, d)
    ensures d.salt == salt
  {
    Digest(salt, password)
  }

  /** `check_password`: does `password` verify against the stored digest? */
  predicate CheckPassword(password: string, d: Digest)
  {
    d.preimage == password
  }

  /** A fresh digest accepts its own password and no other, whatever the salt. */
  lemma CheckAcceptsOnlyThePreimage(password: string, other: string, salt: nat)
    ensures CheckPassword(other, HashPassword(password, salt)) <==> other == password
  {
  }

  /** Two passwords that verify against the same digest are the same password. */
  lemma DigestDeterminesPassword(p: string, q: string, d: Digest)
    requires CheckPassword(p, d) && CheckPassword(q, d)
    ensures p == q
  {
  }
}

=== FILE: ledger.dfy ===
/** The abstract world the register and transfer handlers act on: the local
    `users` table, the Wallet contract's identity records, and the node-side
    numbers the affordability test reads. Also the observable result of one
    request: its response, the new world, and the trace of effects in order. */
module Ledger {
  import opened Credentials

  /** The arguments of one `transferFunds` call. `amount` is in base units. */
  datatype TransferArgs = TransferArgs(to: string, amount: nat, secret: string)

  /** One effect on a collaborator, in the order the handler performs it. */
  datatype Effect =
    | SelectUser(name: string)                        // local store read
    | InsertUser(name: string, digest: Digest)        // local store write
    | UserExists(name: string)                        // contract view call
    | RegisterOnLedger(name: string, secret: string)  // contract transaction
    | GetBalance                                      // node query
    | EstimateTransfer(args: TransferArgs)            // gas estimation of transferFunds
    | GasPrice                                        // node query
    | SubmitTransfer(args: TransferArgs)              // contract transaction
  {
    /** Every effect except the two on the local store reaches the ledger. */
    predicate IsLedgerCall()
    {
      !SelectUser? && !InsertUser?
    }

    /** Effects that change a system of record. */
    predicate IsWrite()
    {
      InsertUser? || RegisterOnLedger? || SubmitTransfer?
    }
  }

  /** `store` is the `users` table (username to digest); `ledger` maps each
      username registered in the contract to the secret it was registered
      with; `balance` is the balance, in base units, of the one account that
      signs every transaction; `gasPrice` is the node's price per gas unit. */
  datatype World = World(
    store: map<string, Digest>,
    ledger: map<string, string>,
    balance: nat,
    gasPrice: nat)

  /** Every local row has a ledger identity, and the stored digest accepts
      the secret the ledger holds for that name. */
  predicate Consistent(w: World)
  {
    forall u :: u in w.store ==> u in w.ledger && CheckPassword(w.ledger[u], w.store[u])
  }

  /** `m'` keeps every entry of `m` unchanged and may add new ones. */
  predicate Extends(m: map<string, string>, m': map<string, string>)
  {
    forall u :: u in m ==> u in m' && m'[u] == m[u]
  }

  /** How a ledger transaction ends: mined, rejected by contract logic
      (`ContractLogicError`), or lost to a transport error, in which case
      the transaction may still have been mined (`landed`). */
  datatype Fault = NoFault | Reverted | Unreachable(landed: bool)

  /** The transaction was mined, so the signing account paid its fee. */
  predicate Landed(f: Fault)
  {
    f.NoFault? || (f.Unreachable? && f.landed)
  }

  datatype Failure = LedgerReverted | LedgerUnreachable | StoreWriteFailed

  /** The handlers' responses. `Unhandled` is an exception the handler does
      not catch, which the web framework turns into a bare server error. */
  datatype Response =
    | Created
    | Transferred
    | ExistsLocally
    | ExistsOnLedger
    | InvalidCredentials
    | InsufficientBalance
    | RegisterFailed(cause: Failure)
    | TransferReverted
    | Unhandled

  /** The HTTP status of each response. */
  function Status(r: Response): (code: int)
    ensures code == 201 <==> r == Created
    ensures code == 200 <==> r == Transferred
    ensures code == 401 <==> r == InvalidCredentials
    ensures code == 400 <==> r in {ExistsLocally, ExistsOnLedger, InsufficientBalance}
    ensures code == 500 <==> r.RegisterFailed? || r == TransferReverted || r == Unhandled
  {
    match r
    case Created => 201
    case Transferred => 200
    case ExistsLocally => 400
    case ExistsOnLedger => 400
    case InsufficientBalance => 400
    case InvalidCredentials => 401
    case RegisterFailed(_) => 500
    case TransferReverted => 500
    case Unhandled => 500
  }

  datatype Step = Step(response: Response, world: World, trace: seq<Effect>)

  /** No effect of the trace reaches the ledger. */
  predicate NoLedgerCall(t: seq<Effect>)
  {
    forall i :: 0 <= i < |t| ==> !t[i].IsLedgerCall()
  }
}

=== FILE: registration.dfy ===
/** The JSON `register` handler: a new identity is written to the ledger
    first and to the local `users` table second. */
module Registration {
  import opened Credentials
  import opened Ledger

  /** What the collaborators do during one request: whether the `userExists`
      view call fails (it sits outside the handler's `try`), how the
      `register` transaction ends, whether the local insert fails, the salt
      `hash_password` draws, and the signing account's balance once a mined
      transaction has paid its fee. */
  datatype RegisterEnv = RegisterEnv(
    existsQueryFails: bool,
    registerFault: Fault,
    insertFails: bool,
    salt: nat,
    balanceAfter: nat)

  /** Both existence checks answered "absent", so the `register` transaction is sent. */
  predicate SendsRegistration(w: World, name: string, env: RegisterEnv)
  {
    name !in w.store && name !in w.ledger && !env.existsQueryFails
  }

  /** One `register(name, password)` request against world `w`. */
  function Register(w: World, name: string, password: string, env: RegisterEnv): (s: Step)
    // a local row already exists: 400 before the ledger is consulted
    ensures name in w.store ==> s.response == ExistsLocally && s.world == w && NoLedgerCall(s.trace)
    // the name is known to the ledger: nothing is written and no second registration is sent
    ensures name !in w.store && name in w.ledger ==>
              s.world == w && s.response in {ExistsOnLedger, Unhandled}
              && forall i :: 0 <= i < |s.trace| ==> !s.trace[i].RegisterOnLedger?
    ensures name !in w.store && name in w.ledger && !env.existsQueryFails ==> s.response == ExistsOnLedger
    // a failing `userExists` query is not caught and changes nothing
    ensures name !in w.store && env.existsQueryFails ==> s.response == Unhandled && s.world == w
    // success exactly when both checks pass and both writes go through
    ensures s.response == Created <==>
              SendsRegistration(w, name, env) && env.registerFault == NoFault && !env.insertFails
    ensures s.response == Created ==>
              s.world.store == w.store[name := HashPassword(password, env.salt)]
              && s.world.ledger == w.ledger[name := password]
    // a failed ledger call is a 500 and leaves no local row; the identity
    // stays on the ledger exactly when the transaction was mined anyway
    ensures SendsRegistration(w, name, env) && env.registerFault == Reverted ==>
              s.response == RegisterFailed(LedgerReverted) && s.world == w
    ensures SendsRegistration(w, name, env) && env.registerFault.Unreachable? ==>
              s.response == RegisterFailed(LedgerUnreachable) && name !in s.world.store
              && s.world.ledger == if env.registerFault.landed then w.ledger[name := password] else w.ledger
    // a failed local insert after a mined registration is a 500 that keeps the ledger identity
    ensures SendsRegistration(w, name, env) && env.registerFault == NoFault && env.insertFails ==>
              s.response == RegisterFailed(StoreWriteFailed) && s.world.store == w.store
              && s.world.ledger == w.ledger[name := password]
    // the local store changes only on success
    ensures s.response != Created ==> s.world.store == w.store
    // the two existence checks come first and precede every write;
    // the ledger registration comes right before the local insert
    ensures |s.trace| > 0 && s.trace[0] == SelectUser(name)
    ensures forall j :: 0 <= j < |s.trace| && s.trace[j].IsWrite() ==> 2 <= j && s.trace[1] == UserExists(name)
    ensures forall j :: 0 <= j < |s.trace| && s.trace[j].InsertUser? ==>
              s.trace[j] == InsertUser(name, HashPassword(password, env.salt))
              && 1 <= j && s.trace[j - 1] == RegisterOnLedger(name, password)
    // the ledger registration is sent whenever both checks pass, and the local
    // insert is attempted exactly when that registration was mined
    ensures SendsRegistration(w, name, env) ==> RegisterOnLedger(name, password) in s.trace
    ensures InsertUser(name, HashPassword(password, env.salt)) in s.trace <==>
              SendsRegistration(w, name, env) && env.registerFault == NoFault
    // nothing else in the world changes, and the ledger is only ever extended
    ensures Extends(w.ledger, s.world.ledger)
    ensures s.world.ledger - {name} == w.ledger - {name}
    // the signer's balance changes only by a mined registration's fee
    ensures s.world.balance == if SendsRegistration(w, name, env) && Landed(env.registerFault) then env.balanceAfter else w.balance
    ensures s.world.gasPrice == w.gasPrice
    ensures Consistent(w) ==> Consistent(s.world)
  {
    var t0 := [SelectUser(name)];
    if name in w.store then
      Step(ExistsLocally, w, t0)
    else
      var t1 := t0 + [UserExists(name)];
      if env.existsQueryFails then
        Step(Unhandled, w, t1)
      else if name in w.ledger then
        Step(ExistsOnLedger, w, t1)
      else
        var t2 := t1 + [RegisterOnLedger(name, password)];
        var registered := w.(ledger := w.ledger[name := password], balance := env.balanceAfter);
        match env.registerFault
        case Reverted =>
          Step(RegisterFailed(LedgerReverted), w, t2)
        case Unreachable(landed) =>
          Step(RegisterFailed(LedgerUnreachable), if landed then registered else w, t2)
        case NoFault =>
          var d := HashPassword(password, env.salt);
          var t3 := t2 + [InsertUser(name, d)];
          if env.insertFails then
            Step(RegisterFailed(StoreWriteFailed), registered, t3)
          else
            Step(Created, registered.(store := w.store[name := d]), t3)
  }
}

=== FILE: sessions.dfy ===
/** Sequences of register and transfer requests handled one after another
    against a shared world, and the properties that only show across calls. */
module Sessions {
  import opened Credentials
  import opened Ledger
  import opened Registration
  import opened Transfers

  datatype Request =
    | RegisterRequest(name: string, password: string, renv: RegisterEnv)
    | TransferRequest(name: string, to: string, amount: int, password: string, tenv: TransferEnv)

  /** The route a request takes. */
  function Handle(w: World, r: Request): (s: Step)
  {
    match r
    case RegisterRequest(name, password, env) => Register(w, name, password, env)
    case TransferRequest(name, to, amount, password, env) => Transfer(w, name, to, amount, password, env)
  }

  /** The final world of a run and the response to each request, in order. */
  datatype Session = Session(world: World, responses: seq<Response>)

  function Run(w: World, rs: seq<Request>): (out: Session)
    ensures |out.responses| == |rs|
    decreases |rs|
  {
    if rs == [] then
      Session(w, [])
    else
      var s := Handle(w, rs[0]);
      var rest := Run(s.world, rs[1..]);
      Session(rest.world, [s.response] + rest.responses)
  }

  /** Handling two batches one after the other is handling their concatenation. */
  lemma {:induction false} RunAppend(w: World, rs: seq<Request>, qs: seq<Request>)
    ensures Run(w, rs + qs).responses == Run(w, rs).responses + Run(Run(w, rs).world, qs).responses
    ensures Run(w, rs + qs).world == Run(Run(w, rs).world, qs).world
    decreases |rs|
  {
    if rs == [] {
      assert rs + qs == qs;
    } else {
      var xs := rs + qs;
      var h := Handle(w, rs[0]);
      assert xs[0] == rs[0];
      assert xs[1..] == rs[1..] + qs;
      var tail := Run(h.world, rs[1..]);
      RunAppend(h.world, rs[1..], qs);
      assert Run(w, xs).responses == [h.response] + Run(h.world, rs[1..] + qs).responses;
      assert Run(w, rs).responses == [h.response] + tail.responses;
    }
  }

  /** Each request is answered, in order, by its handler on the world that the
      requests before it left behind. */
  lemma RunAnswersInOrder(w: World, rs: seq<Request>, k: nat)
    requires k < |rs|
    ensures Run(w, rs).responses[k] == Handle(Run(w, rs[..k]).world, rs[k]).response
  {
    assert rs == rs[..k] + rs[k..];
    RunAppend(w, rs[..k], rs[k..]);
    assert rs[k..][1..] == rs[k + 1..];
  }

  predicate Registers(r: Request, name: string)
  {
    r.RegisterRequest? && r.name == name
  }

  /** Consistency between the two systems of record survives any run: a local
      row never exists without the ledger identity it was registered with. */
  lemma {:induction false} RunPreservesConsistency(w: World, rs: seq<Request>)
    requires Consistent(w)
    ensures Consistent(Run(w, rs).world)
    decreases |rs|
  {
    if rs != [] {
      RunPreservesConsistency(Handle(w, rs[0]).world, rs[1..]);
    }
  }

  /** A run never removes or rewrites a ledger identity. */
  lemma {:induction false} RunExtendsLedger(w: World, rs: seq<Request>)
    ensures Extends(w.ledger, Run(w, rs).world.ledger)
    decreases |rs|
  {
    if rs != [] {
      var w1 := Handle(w, rs[0]).world;
      RunExtendsLedger(w1, rs[1..]);
    }
  }

  /** Once a name is on the ledger, no later registration of it succeeds,
      whether or not a local row was ever written. */
  lemma {:induction false} NoCreationOnceOnLedger(w: World, rs: seq<Request>, name: string)
    requires name in w.ledger
    ensures forall j :: 0 <= j < |rs| && Registers(rs[j], name) ==> Run(w, rs).responses[j] != Created
    decreases |rs|
  {
    if rs != [] {
      var s := Handle(w, rs[0]);
      NoCreationOnceOnLedger(s.world, rs[1..], name);
      forall j | 0 <= j < |rs| && Registers(rs[j], name)
        ensures Run(w, rs).responses[j] != Created
      {
        if j > 0 {
          assert Run(w, rs).responses[j] == Run(s.world, rs[1..]).responses[j - 1];
        }
      }
    }
  }

  /** No duplicate identities: among the registrations of one name in a run,
      at most one is answered `Created`. */
  lemma {:induction false} AtMostOneCreated(w: World, rs: seq<Request>, name: string)
    ensures forall i, j ::
              0 <= i < j < |rs| && Registers(rs[i], name) && Registers(rs[j], name) && Run(w, rs).responses[i] == Created
              ==> Run(w, rs).responses[j] != Created
    decreases |rs|
  {
    if rs != [] {
      var s := Handle(w, rs[0]);
      var out := Run(w, rs);
      var rest := Run(s.world, rs[1..]);
      AtMostOneCreated(s.world, rs[1..], name);
      if Registers(rs[0], name) && s.response == Created {
        NoCreationOnceOnLedger(s.world, rs[1..], name);
      }
      forall i, j | 0 <= i < j < |rs| && Registers(rs[i], name) && Registers(rs[j], name) && out.responses[i] == Created
        ensures out.responses[j] != Created
      {
        assert out.responses[j] == rest.responses[j - 1];
        if i > 0 {
          assert out.responses[i] == rest.responses[i - 1];
        }
      }
    }
  }

  /** A registration that failed after its ledger transaction landed leaves
      the name on the ledger only; a retry, with any password, is refused
      without a second ledger registration and without a local row. */
  lemma RetryAfterPartialFailure(w: World, name: string, p1: string, e1: RegisterEnv, p2: string, e2: RegisterEnv)
    requires SendsRegistration(w, name, e1)
    requires e1.registerFault == Unreachable(true) || (e1.registerFault == NoFault && e1.insertFails)
    ensures Register(w, name, p1, e1).response.RegisterFailed?
    ensures var w1 := Register(w, name, p1, e1).world;
            var s2 := Register(w1, name, p2, e2);
            s2.response in {ExistsOnLedger, Unhandled}
            && s2.world.store == w.store
            && forall i :: 0 <= i < |s2.trace| ==> !s2.trace[i].RegisterOnLedger?
  {
  }

  /** Scenario: on an empty world, a second registration of the same name is
      a conflict reported by the local store. */
  lemma SecondRegistrationConflicts(e1: RegisterEnv, e2: RegisterEnv)
    requires !e1.existsQueryFails && e1.registerFault == NoFault && !e1.insertFails
    ensures Run(World(map[], map[], 0, 0),
                [RegisterRequest("alice", "pw1", e1), RegisterRequest("alice", "pw2", e2)]).responses
            == [Created, ExistsLocally]
  {
  }

  /** Every mined transaction is paid for by the one signing account, so a
      fee paid by one transfer counts against the next: two transfers of 9
      from a balance of 10, at a fee of 1 each, cannot both go through. */
  lemma FeesCountAgainstLaterTransfers(d: Digest)
    requires CheckPassword("pw", d)
    ensures var w := World(map["alice" := d], map["alice" := "pw"], 10, 1);
            var e := TransferEnv(Gas(1), NoFault, 9);
            Run(w, [TransferRequest("alice", "0xb0b", 9, "pw", e), TransferRequest("alice", "0xb0b", 9, "pw", e)]).responses
            == [Transferred, InsufficientBalance]
  {
  }
}

=== FILE: sms.dfy ===
/** Command selection in the `sms` handler: which action an incoming text
    message asks for, and for whom. Looking the farmer up and sending the
    reply are not part of this model. */
module Sms {
  import opened Text

  /** The six lines that follow an ADD command, in message order. */
  datatype Produce = Produce(
    name: string,
    price: string,
    quantity: string,
    category: string,
    description: string,
    agency: string)

  /** `to` is the sender's number with its two-character prefix removed.
      `NoAction` covers an unknown command and an ADD with the wrong number
      of lines; `MissingCommandLine` is the `IndexError` raised when the
      message has no second line. */
  datatype Command =
    | Help(to: string)
    | AddProduce(to: string, produce: Produce)
    | ShowLatestProduce(to: string)
    | DeliveryAgencies(to: string)
    | NoAction
    | MissingCommandLine

  /** `sender[2:]`, which is empty for a sender shorter than two characters. */
  function Phone(sender: string): (p: string)
    ensures |sender| >= 2 ==> sender == sender[..2] + p
    ensures |sender| < 2 ==> p == ""
  {
    if |sender| >= 2 then sender[2..] else ""
  }

  function ProduceOf(fields: seq<string>): (p: Produce)
    requires |fields| == 6
  {
    Produce(fields[0], fields[1], fields[2], fields[3], fields[4], fields[5])
  }

  /** The choice made from the lowered command line `key` and the lines
      after it. The four commands cannot both match, so the handler's
      independent tests amount to this chain. */
  function Select(key: string, fields: seq<string>, to: string): (cmd: Command)
  {
    if key == "help" then Help(to)
    else if key == "add" then
      if |fields| == 6 then AddProduce(to, ProduceOf(fields)) else NoAction
    else if RemoveSpaces(key) == "showlatestproduce" then ShowLatestProduce(to)
    else if RemoveSpaces(key) == "deliveryagencies" then DeliveryAgencies(to)
    else NoAction
  }

  /** Command selection on the message's lines: line 1 is the command,
      compared after lowering; two commands also ignore spaces. */
  function ClassifyLines(lines: seq<string>, to: string): (cmd: Command)
  {
    if |lines| < 2 then MissingCommandLine else Select(Lower(lines[1]), lines[2..], to)
  }

  /** The handler on a message body `content` from `sender`. */
  function Classify(content: string, sender: string): (cmd: Command)
    // line 1 exists exactly when the body contains a line break
    ensures cmd == MissingCommandLine <==> '\n' !in content
    // every reply goes to the sender without its two-character prefix
    ensures !cmd.NoAction? && !cmd.MissingCommandLine? ==>
              (|sender| >= 2 ==> sender == sender[..2] + cmd.to) && (|sender| < 2 ==> cmd.to == "")
  {
    ClassifyLines(Split(content, '\n'), Phone(sender))
  }

  /** The handler as written: four independent tests, each of which acts on
      its own. */
  function AsWritten(lines: seq<string>, to: string): (fired: seq<Command>)
    requires |lines| >= 2
  {
    var key := Lower(lines[1]);
    (if key == "help" then [Help(to)] else [])
    + (if key == "add" && |lines[2..]| == 6 then [AddProduce(to, ProduceOf(lines[2..]))] else [])
    + (if RemoveSpaces(key) == "showlatestproduce" then [ShowLatestProduce(to)] else [])
    + (if RemoveSpaces(key) == "deliveryagencies" then [DeliveryAgencies(to)] else [])
  }

  /** At most one of the handler's four tests fires, and it is the command
      `ClassifyLines` selects; otherwise none fires. */
  lemma AtMostOneCommandFires(lines: seq<string>, to: string)
    requires |lines| >= 2
    ensures AsWritten(lines, to) == if ClassifyLines(lines, to) == NoAction then [] else [ClassifyLines(lines, to)]
  {
  }

  /** ADD acts exactly when the command line is `add` (any case) and exactly
      six lines follow it, and the produce fields are those six lines. */
  lemma AddGate(content: string, sender: string)
    ensures var lines := Split(content, '\n');
            Classify(content, sender).AddProduce? <==> |lines| == 8 && Lower(lines[1]) == "add"
    ensures var lines := Split(content, '\n');
            Classify(content, sender).AddProduce? ==>
              var p := Classify(content, sender).produce;
              [p.name, p.price, p.quantity, p.category, p.description, p.agency] == lines[2..]
  {
  }

  /** The payload an ADD carries, lowered; other commands carry nothing to lower. */
  function LowerPayload(c: Command): (lowered: Command)
  {
    match c
    case AddProduce(to, p) =>
      AddProduce(to, Produce(Lower(p.name), Lower(p.price), Lower(p.quantity),
                             Lower(p.category), Lower(p.description), Lower(p.agency)))
    case _ => c
  }

  lemma SelectLowersPayload(key: string, fields: seq<string>, to: string)
    ensures Select(key, LowerAll(fields), to) == LowerPayload(Select(key, fields, to))
  {
    if key == "add" && |fields| == 6 {
      LowerAllIsPointwise(fields);
    }
  }

  /** Commands are case-insensitive: lowering the whole message selects the
      same command for the same recipient, with only an ADD's fields lowered. */
  lemma ClassifyIgnoresCase(content: string, sender: string)
    ensures Classify(Lower(content), sender) == LowerPayload(Classify(content, sender))
  {
    var lines := Split(content, '\n');
    SplitLower(content);
    if |lines| >= 2 {
      var low := LowerAll(lines);
      LowerAllIsPointwise(lines);
      LowerIdempotent(lines[1]);
      assert Lower(low[1]) == Lower(lines[1]);
      LowerAllSuffix(lines, 2);
      SelectLowersPayload(Lower(lines[1]), lines[2..], Phone(sender));
    }
  }

  /** Spaces inside the command line are ignored by SHOW LATEST PRODUCE and
      DELIVERY AGENCIES: a line that differs only in spaces selects the same one. */
  lemma SpacesIgnoredForListings(lines: seq<string>, to: string, a: string, b: string)
    requires |lines| >= 2
    requires RemoveSpaces(a) == RemoveSpaces(b)
    requires ClassifyLines(lines[1 := a], to) in {ShowLatestProduce(to), DeliveryAgencies(to)}
    ensures ClassifyLines(lines[1 := b], to) == ClassifyLines(lines[1 := a], to)
  {
    LowerRemoveSpacesCommute(a);
    LowerRemoveSpacesCommute(b);
    SpacesIgnoredInSelect(Lower(a), Lower(b), lines[2..], to);
  }

  lemma SpacesIgnoredInSelect(ka: string, kb: string, fields: seq<string>, to: string)
    requires RemoveSpaces(ka) == RemoveSpaces(kb)
    requires Select(ka, fields, to) in {ShowLatestProduce(to), DeliveryAgencies(to)}
    ensures Select(kb, fields, to) == Select(ka, fields, to)
  {
  }

  /** HELP and ADD are compared without removing spaces: a padded command
      line selects nothing. */
  lemma SpacesMatterForHelpAndAdd(to: string)
    ensures ClassifyLines(["", "HELP"], to) == Help(to)
    ensures ClassifyLines(["", "he lp"], to) == NoAction
    ensures ClassifyLines(["", "a dd", "n", "p", "q", "c", "d", "a"], to) == NoAction
  {
    assert Lower("he lp") == "he lp";
    assert RemoveSpaces("he lp") == "help";
    assert Lower("a dd") == "a dd";
    assert RemoveSpaces("a dd") == "add";
  }
}

=== FILE: text.dfy ===
/** The Python string operations the SMS handler relies on: `str.split` with
    a one-character separator, `str.lower` and `str.replace(" ", "")`. */
module Text {

  /** `s.split(sep)`: the pieces between separators, always at least one
      (splitting the empty string gives one empty piece). */
  function Split(s: string, sep: char): (parts: seq<string>)
    ensures |parts| >= 1
    ensures forall i :: 0 <= i < |parts| ==> sep !in parts[i]
    ensures |parts| >= 2 <==> sep in s
  {
    if s == [] then
      [""]
    else
      var rest := Split(s[1..], sep);
      if s[0] == sep then [""] + rest
      else [[s[0]] + rest[0]] + rest[1..]
  }

  /** `sep.join(parts)`, the inverse of `Split`. */
  function Join(parts: seq<string>, sep: char): (s: string)
    requires |parts| >= 1
  {
    if |parts| == 1 then parts[0] else parts[0] + [sep] + Join(parts[1..], sep)
  }

  lemma {:induction false} JoinSplit(s: string, sep: char)
    ensures Join(Split(s, sep), sep) == s
  {
    if s != [] {
      var rest := Split(s[1..], sep);
      JoinSplit(s[1..], sep);
      if s[0] == sep {
        assert Split(s, sep)[1..] == rest;
      } else {
        var parts := Split(s, sep);
        if |rest| == 1 {
          assert parts == [[s[0]] + rest[0]];
        } else {
          assert parts[1..] == rest[1..];
          assert Join(rest, sep) == rest[0] + [sep] + Join(rest[1..], sep);
        }
      }
    }
  }

  /** Splitting text that starts with a separator-free piece `a`. */
  lemma {:induction false} SplitPrefix(a: string, t: string, sep: char)
    requires sep !in a
    ensures Split(a + t, sep) == [a + Split(t, sep)[0]] + Split(t, sep)[1..]
  {
    if a != [] {
      assert (a + t)[1..] == a[1..] + t;
      SplitPrefix(a[1..], t, sep);
      assert [a[0]] + (a[1..] + Split(t, sep)[0]) == a + Split(t, sep)[0];
    } else {
      var parts := Split(t, sep);
      assert a + t == t && a + parts[0] == parts[0];
      assert [parts[0]] + parts[1..] == parts;
    }
  }

  lemma {:induction false} SplitJoin(parts: seq<string>, sep: char)
    requires |parts| >= 1
    requires forall i :: 0 <= i < |parts| ==> sep !in parts[i]
    ensures Split(Join(parts, sep), sep) == parts
  {
    if |parts| == 1 {
      SplitPrefix(parts[0], "", sep);
      assert parts[0] + "" == parts[0];
    } else {
      var tail := Join(parts[1..], sep);
      SplitJoin(parts[1..], sep);
      assert parts[0] + [sep] + tail == parts[0] + ([sep] + tail);
      SplitPrefix(parts[0], [sep] + tail, sep);
      assert ([sep] + tail)[1..] == tail;
      assert Split([sep] + tail, sep) == [""] + parts[1..];
      assert parts[0] + "" == parts[0];
    }
  }

  /** `str.lower` on one character, restricted to ASCII letters. */
  function LowerChar(c: char): (l: char)
    ensures l != c <==> 'A' <= c <= 'Z'
    ensures 'A' <= c <= 'Z' ==> 'a' <= l <= 'z' && l as int - c as int == 32
  {
    if 'A' <= c <= 'Z' then (c as int + 32) as char else c
  }

  function Lower(s: string): (r: string)
    ensures |r| == |s|
  {
    if s == [] then [] else [LowerChar(s[0])] + Lower(s[1..])
  }

  lemma {:induction false} LowerIsPointwise(s: string, i: nat)
    requires i < |s|
    ensures Lower(s)[i] == LowerChar(s[i])
  {
    if i > 0 {
      LowerIsPointwise(s[1..], i - 1);
    }
  }

  /** No upper-case ASCII letter survives lowering, so lowering twice is lowering once. */
  lemma {:induction false} LowerIdempotent(s: string)
    ensures Lower(Lower(s)) == Lower(s)
  {
    if s != [] {
      LowerIdempotent(s[1..]);
      assert Lower(s)[1..] == Lower(s[1..]);
    }
  }

  /** `s.replace(" ", "")`: every U+0020 space removed, nothing else. With
      `RemoveSpacesAppend` the one-character case fixes the whole function. */
  function RemoveSpaces(s: string): (r: string)
    ensures ' ' !in r
    ensures |r| <= |s|
    ensures forall c :: c != ' ' ==> (c in r <==> c in s)
    ensures |s| == 1 ==> r == if s[0] == ' ' then [] else s
  {
    if s == [] then []
    else if s[0] == ' ' then RemoveSpaces(s[1..])
    else [s[0]] + RemoveSpaces(s[1..])
  }

  /** Every non-space character is kept as often as it occurs; no space is. */
  lemma {:induction false} RemoveSpacesCounts(s: string)
    ensures multiset(RemoveSpaces(s)) == multiset(s)[' ' := 0]
  {
    if s != [] {
      RemoveSpacesCounts(s[1..]);
      assert s == [s[0]] + s[1..];
    }
  }

  /** Removing spaces works piece by piece, so the characters kept stay in order. */
  lemma {:induction false} RemoveSpacesAppend(a: string, b: string)
    ensures RemoveSpaces(a + b) == RemoveSpaces(a) + RemoveSpaces(b)
  {
    if a == [] {
      assert a + b == b;
    } else {
      assert (a + b)[0] == a[0];
      assert (a + b)[1..] == a[1..] + b;
      RemoveSpacesAppend(a[1..], b);
    }
  }

  lemma {:induction false} RemoveSpacesKeepsSpaceFree(s: string)
    requires ' ' !in s
    ensures RemoveSpaces(s) == s
  {
    if s != [] {
      RemoveSpacesKeepsSpaceFree(s[1..]);
      assert s == [s[0]] + s[1..];
    }
  }

  /** Lowering and removing spaces commute, since lowering neither makes nor
      removes a space. */
  lemma {:induction false} LowerRemoveSpacesCommute(s: string)
    ensures RemoveSpaces(Lower(s)) == Lower(RemoveSpaces(s))
  {
    if s != [] {
      LowerRemoveSpacesCommute(s[1..]);
      assert Lower(s)[0] == LowerChar(s[0]);
      assert Lower(s)[1..] == Lower(s[1..]);
      if s[0] != ' ' {
        var r := [s[0]] + RemoveSpaces(s[1..]);
        assert r[0] == s[0] && r[1..] == RemoveSpaces(s[1..]);
      }
    }
  }

  function LowerAll(parts: seq<string>): (r: seq<string>)
    ensures |r| == |parts|
  {
    if parts == [] then [] else [Lower(parts[0])] + LowerAll(parts[1..])
  }

  lemma {:induction false} LowerAllIsPointwise(parts: seq<string>)
    ensures forall i :: 0 <= i < |parts| ==> LowerAll(parts)[i] == Lower(parts[i])
  {
    if parts != [] {
      LowerAllIsPointwise(parts[1..]);
    }
  }

  lemma {:induction false} LowerAllSuffix(parts: seq<string>, k: nat)
    requires k <= |parts|
    ensures LowerAll(parts)[k..] == LowerAll(parts[k..])
  {
    if k > 0 {
      LowerAllSuffix(parts[1..], k - 1);
      assert parts[1..][k - 1..] == parts[k..];
    }
  }

  /** Lowering the text first or each line afterwards gives the same lines. */
  lemma {:induction false} SplitLower(s: string)
    ensures Split(Lower(s), '\n') == LowerAll(Split(s, '\n'))
  {
    if s != [] {
      SplitLower(s[1..]);
      var rest := Split(s[1..], '\n');
      assert Lower(s)[0] == LowerChar(s[0]);
      assert Lower(s)[1..] == Lower(s[1..]);
      if s[0] == '\n' {
        assert LowerAll([""] + rest) == [""] + LowerAll(rest);
      } else {
        var parts := [[s[0]] + rest[0]] + rest[1..];
        assert parts[1..] == rest[1..];
        assert LowerAll(rest) == [Lower(rest[0])] + LowerAll(rest[1..]);
        assert ([s[0]] + rest[0])[1..] == rest[0];
      }
    }
  }
}

=== FILE: transfers.dfy ===
/** The `transfer` handler: a local credential gate, then an affordability
    test against the signing account's balance, then one `transferFunds`
    transaction. */
module Transfers {
  import opened Credentials
  import opened Ledger

  /** The answer of `estimate_gas` for the transfer call: a gas amount, a
      contract-logic revert (`ContractLogicError`), or any other exception,
      such as a transport error or a `to_address` web3 refuses as an address;
      the handler catches only the revert. */
  datatype GasReply = Gas(units: nat) | EstimateReverted | EstimateUnreachable

  /** What the collaborators do during one request: the gas estimate, how the
      `transferFunds` transaction ends, and the signing account's balance once
      a mined transaction has been paid for. */
  datatype TransferEnv = TransferEnv(estimate: GasReply, submitFault: Fault, balanceAfter: nat)

  /** The credential gate: the user has a local row and the password verifies. */
  predicate Authenticated(w: World, name: string, password: string)
  {
    name in w.store && CheckPassword(password, w.store[name])
  }

  /** The largest value `to_wei` accepts, 2^256 - 1 base units. */
  const MaxWei: int := 115792089237316195423570985008687907853269984665640564039457584007913129639935

  /** `to_wei` converts the amount without raising: it is neither negative
      nor beyond 2^256 - 1 base units. */
  predicate InWeiRange(amount: int)
  {
    0 <= amount <= MaxWei
  }

  /** The gate passed, the amount converted, the fee was estimated, and the balance covers amount
      plus fee, so the `transferFunds` transaction is sent. */
  predicate SendsTransfer(w: World, name: string, amount: int, password: string, env: TransferEnv)
  {
    Authenticated(w, name, password) && InWeiRange(amount) && env.estimate.Gas?
    && amount + env.estimate.units * w.gasPrice <= w.balance
  }

  /** One `transfer(name, to, amount, password)` request against world `w`;
      `amount` is already in base units, and may be out of `to_wei`'s range. */
  function Transfer(w: World, name: string, to: string, amount: int, password: string, env: TransferEnv): (s: Step)
    // the handler writes neither the local store nor the ledger identities;
    // the signer's balance changes only when the transaction is mined
    ensures s.world.store == w.store && s.world.ledger == w.ledger && s.world.gasPrice == w.gasPrice
    ensures s.world.balance ==
              if SendsTransfer(w, name, amount, password, env) && Landed(env.submitFault) then env.balanceAfter else w.balance
    // credential gate: 401 exactly when it fails, and then no ledger call at all
    ensures s.response == InvalidCredentials <==> !Authenticated(w, name, password)
    ensures !Authenticated(w, name, password) ==> NoLedgerCall(s.trace)
    ensures |s.trace| > 0 && s.trace[0] == SelectUser(name)
    // affordability: rejected exactly when balance < amount + fee (equality passes)
    ensures Authenticated(w, name, password) && InWeiRange(amount) && env.estimate.Gas? ==>
              (s.response == InsufficientBalance <==> w.balance < amount + env.estimate.units * w.gasPrice)
    ensures s.response == InsufficientBalance ==> forall i :: 0 <= i < |s.trace| ==> !s.trace[i].SubmitTransfer?
    ensures s.response == Transferred <==> SendsTransfer(w, name, amount, password, env) && env.submitFault == NoFault
    // a contract-logic revert, at estimation or at submission, is the handler's own 500
    ensures s.response == TransferReverted <==>
              Authenticated(w, name, password) && InWeiRange(amount)
              && (env.estimate.EstimateReverted? || (SendsTransfer(w, name, amount, password, env) && env.submitFault == Reverted))
    // an amount `to_wei` rejects, or a transport error at estimation or at
    // submission, raises an error the handler does not catch
    ensures s.response == Unhandled <==>
              Authenticated(w, name, password)
              && (!InWeiRange(amount) || env.estimate.EstimateUnreachable? || (SendsTransfer(w, name, amount, password, env) && env.submitFault.Unreachable?))
    // the conversion fails after the gate and the balance query, before any estimate
    ensures Authenticated(w, name, password) && !InWeiRange(amount) ==> s.trace == [SelectUser(name), GetBalance]
    // exactly one submission when the balance suffices, none otherwise
    ensures SendsTransfer(w, name, amount, password, env) ==> SubmitTransfer(TransferArgs(to, amount, password)) in s.trace
    ensures !SendsTransfer(w, name, amount, password, env) ==> forall i :: 0 <= i < |s.trace| ==> !s.trace[i].SubmitTransfer?
    // at most one submission, with the request's arguments, estimated beforehand with the same ones
    ensures forall i, j :: 0 <= i < |s.trace| && 0 <= j < |s.trace| && s.trace[i].SubmitTransfer? && s.trace[j].SubmitTransfer? ==>
              i == j
    ensures forall j :: 0 <= j < |s.trace| && s.trace[j].SubmitTransfer? ==>
              s.trace[j].args.to == to && s.trace[j].args.amount == amount && s.trace[j].args.secret == password
              && EstimateTransfer(s.trace[j].args) in s.trace[..j]
  {
    var t0 := [SelectUser(name)];
    if !Authenticated(w, name, password) then
      Step(InvalidCredentials, w, t0)
    else if !InWeiRange(amount) then
      Step(Unhandled, w, t0 + [GetBalance])
    else
      var args := TransferArgs(to, amount, password);
      var t1 := t0 + [GetBalance, EstimateTransfer(args)];
      match env.estimate
      case EstimateReverted =>
        Step(TransferReverted, w, t1)
      case EstimateUnreachable =>
        Step(Unhandled, w, t1)
      case Gas(g) =>
        var t2 := t1 + [GasPrice];
        if w.balance < amount + g * w.gasPrice then
          Step(InsufficientBalance, w, t2)
        else
          var t3 := t2 + [SubmitTransfer(args)];
          var paid := w.(balance := env.balanceAfter);
          match env.submitFault
          case NoFault => Step(Transferred, paid, t3)
          case Reverted => Step(TransferReverted, w, t3)
          case Unreachable(landed) => Step(Unhandled, if landed then paid else w, t3)
  }

  /** Under a consistent world, a password that passes the local gate is the
      very secret the ledger holds for that name. */
  lemma GatePassImpliesLedgerSecret(w: World, name: string, password: string)
    requires Consistent(w)
    requires Authenticated(w, name, password)
    ensures name in w.ledger && w.ledger[name] == password
  {
  }

  /** The affordability test at its boundary: a balance equal to amount plus
      fee is enough, one base unit less is not. */
  lemma AffordabilityBoundary(w: World, name: string, to: string, amount: nat, password: string, g: nat, f: Fault, after: nat)
    requires Authenticated(w, name, password)
    requires amount <= MaxWei
    ensures var s := Transfer(w.(balance := amount + g * w.gasPrice), name, to, amount, password, TransferEnv(Gas(g), f, after));
            s.response != InsufficientBalance
            && exists j :: 0 <= j < |s.trace| && s.trace[j] == SubmitTransfer(TransferArgs(to, amount, password))
    ensures amount + g * w.gasPrice > 0 ==>
              var s := Transfer(w.(balance := amount + g * w.gasPrice - 1), name, to, amount, password, TransferEnv(Gas(g), f, after));
              s.response == InsufficientBalance
  {
  }
}
